=== FILE: README.md ===
# US bank holidays, modelled in Dafny

This project models the rule engine of the `bank-holidays` Java library. The
engine decides whether a calendar date is a US bank holiday. It has two parts:

- eleven holiday rules (`USNewYearsDay` … `USChristmas` in
  `USBankCalendarFactory`). Each rule is a pure test on a date.
- `BankCalendar`. It holds the list of rules it was constructed with. A date
  is a holiday when any rule in the list matches it.
  `USBankCalendarFactory.createBankCalendar` builds the calendar of all eleven
  rules.

The rules come in three shapes:

- **Fixed date, moved forward.** New Year's Day (1/1), Juneteenth (6/19),
  Independence Day (7/4), Veterans Day (11/11) and Christmas (12/25). Each
  matches its own date. It also matches the next day when that day is a
  Monday. A holiday that falls on a Saturday is never moved back to Friday.
- **N-th weekday of a month.** Martin Luther King Jr. Day and Presidents' Day
  are the Monday of aligned week 3 of January and of February. Labor Day is
  the Monday of week 1 of September. Columbus Day is the Monday of week 2 of
  October. Thanksgiving is the Thursday of week 4 of November.
- **Memorial Day.** The Monday strictly before June 1 of the same year.

Files and modules:

- `Dates.dfy` (module `Dates`) stands in for the parts of `java.time` the rules
  use. It has the proleptic Gregorian date and `LocalDate.toEpochDay`. It has
  `getDayOfWeek`, computed as floorMod(epochDay + 3, 7) + 1, and
  `ALIGNED_WEEK_OF_MONTH`, which is (day − 1) / 7 + 1. It has
  `minus(n, DAYS)` and `TemporalAdjusters.previous`.
- `USHolidays.dfy` (module `USHolidays`) holds the rules. They are the
  datatype `Holiday`, with one constructor per Java rule class, and the
  predicate `IsHoliday(h, day)`, which is `Holiday.isHoliday`. This file also
  holds `NominalDate`, an independent reference that gives the date each rule
  names in a year. The lemmas tie the rules to that reference.
- `BankCalendar.dfy` (module `BankCalendars`) holds the calendar and
  `anyMatch`.
- `USBankCalendarFactory.dfy` (module `USBankCalendarFactory`) holds the
  factory and the dates that the repository's tests check.

Two details of the code decide edge cases:

- Memorial Day uses `TemporalAdjusters.previous`, which is strict. So when
  June 1 is a Monday the result is May 25 (`MemorialDayWhenJuneStartsOnMonday`).
- `ALIGNED_WEEK_OF_MONTH` puts days 1–7 in week 1 whatever the weekday, days
  8–14 in week 2, and so on.

## Model

| member | source | states |
|---|---|---|
| `Dates.LengthOfMonth` | src/main/java/com/dsoftware/bankholidays/USBankCalendarFactory.java:136 | A month has 28 to 31 days. It has 29 exactly when it is February of a Gregorian leap year. This length is the validity bound `LocalDate.of` enforces. |
| `Dates.AlignedWeekOfMonth` | src/main/java/com/dsoftware/bankholidays/USBankCalendarFactory.java:68-70 | The aligned week k is between 1 and 5, and the day of the month lies in 7k−6 … 7k. |
| `Dates.DaysBeforeYearStep` | src/main/java/com/dsoftware/bankholidays/USBankCalendarFactory.java:136 | toEpochDay's year count (both its non-negative and its negative formula) grows by 366 after a leap year and by 365 after any other year. |
| `Dates.DayOfWeekShift` | src/main/java/com/dsoftware/bankholidays/USBankCalendarFactory.java:50-52 | A date n days later falls n weekdays later, modulo 7. |
| `Dates.SameDayOfWeekWithinAWeek` | src/main/java/com/dsoftware/bankholidays/USBankCalendarFactory.java:50-52 | Two dates less than a week apart in one month that fall on the same weekday are the same date. |
| `Dates.MinusDays` | src/main/java/com/dsoftware/bankholidays/USBankCalendarFactory.java:137 | Stepping back n days (0 ≤ n ≤ 28), also across a month or year boundary, gives the date whose epoch day is n smaller. |
| `Dates.Previous` | src/main/java/com/dsoftware/bankholidays/USBankCalendarFactory.java:137 | `previous(dayOfWeek)` returns a date 1 to 7 days strictly before its input that falls on `dayOfWeek`. |
| `Dates.EpochDayIncreasing` | src/main/java/com/dsoftware/bankholidays/USBankCalendarFactory.java:136-137 | toEpochDay is strictly increasing in calendar order (year, then month, then day). |
| `Dates.EpochDayInjective` | src/main/java/com/dsoftware/bankholidays/USBankCalendarFactory.java:136-137 | Two valid dates with the same epoch day are the same date, so the epoch-day contracts of `MinusDays` and `Previous` name a single date. |
| `Dates.PreviousIsUnique` | src/main/java/com/dsoftware/bankholidays/USBankCalendarFactory.java:137 | `previous(dayOfWeek)` returns the only date in the seven days strictly before its input that falls on `dayOfWeek`. |
| `USHolidays.NominalDate` | src/main/java/com/dsoftware/bankholidays/USBankCalendarFactory.java:32-286 | Gives the date each rule names in a year. MLK Day and Presidents' Day are January or February Mondays on days 15–21. Memorial Day is a May Monday on days 25–31. Labor Day is a September Monday on days 1–7. Columbus Day is an October Monday on days 8–14. Thanksgiving is a November Thursday on days 22–28. Every fixed date comes before the last day of its month. |
| `USHolidays.FixedDateHolidayObserved` | src/main/java/com/dsoftware/bankholidays/USBankCalendarFactory.java:32-286 | For New Year's, Juneteenth, Independence Day, Veterans Day and Christmas: the rule matches a date iff it is the fixed date, or it is the day after and the fixed date fell on a Sunday. A match is never before the fixed date, so a Saturday date is never moved to Friday. |
| `USHolidays.FloatingHolidayOncePerYear` | src/main/java/com/dsoftware/bankholidays/USBankCalendarFactory.java:59-259 | For MLK Day, Presidents' Day, Memorial Day, Labor Day, Columbus Day and Thanksgiving: the rule matches a date iff the date is that year's NominalDate. So each matches exactly one date a year. |
| `USHolidays.FloatingHolidayWindows` | src/main/java/com/dsoftware/bankholidays/USBankCalendarFactory.java:59-259 | Each weekday-of-month rule matches exactly the dates of its month that fall on its weekday within its window: MLK and Presidents' Day 15–21, Labor Day 1–7, Columbus Day 8–14, Thanksgiving 22–28. |
| `USHolidays.MemorialDayIsLastMondayOfMay` | src/main/java/com/dsoftware/bankholidays/USBankCalendarFactory.java:130-140 | Memorial Day matches a date iff it is a Monday in May with no later Monday in May. |
| `USHolidays.MemorialDayWhenJuneStartsOnMonday` | src/main/java/com/dsoftware/bankholidays/USBankCalendarFactory.java:136-138 | When June 1 is a Monday, Memorial Day is May 25 and June 1 does not match. |
| `USHolidays.HolidaysNeverCoincide` | src/main/java/com/dsoftware/bankholidays/USBankCalendarFactory.java:16-27 | No date is matched by two different rules. |
| `BankCalendars.AnyMatch` | src/main/java/com/dsoftware/bankholidays/BankCalendar.java:15 | The left-to-right any-match over the rule list is true iff some rule in the list matches the date. |
| `BankCalendars.BankCalendar.IsHoliday` | src/main/java/com/dsoftware/bankholidays/BankCalendar.java:14-16 | A calendar reports a holiday iff some rule at some position of its list matches the date. |
| `BankCalendars.EmptyCalendarHasNoHolidays` | src/main/java/com/dsoftware/bankholidays/BankCalendar.java:10-16 | A calendar with no rules reports no holiday. |
| `BankCalendars.IsHolidayIgnoresOrderAndRepetition` | src/main/java/com/dsoftware/bankholidays/BankCalendar.java:15 | Two rule lists that hold the same rules, in any order and with any repetition, give the same answer for every date. |
| `BankCalendars.AddingRulesIsMonotone` | src/main/java/com/dsoftware/bankholidays/BankCalendar.java:14-15 | A holiday under list L, or under list L', stays a holiday under L ++ L'. |
| `USBankCalendarFactory.CreateBankCalendar` | src/main/java/com/dsoftware/bankholidays/USBankCalendarFactory.java:15-30 | The factory calendar has eleven rules and contains every rule, so each rule appears exactly once. |
| `USBankCalendarFactory.MatchedByRule` | src/main/java/com/dsoftware/bankholidays/USBankCalendarFactory.java:16-29 | Any date one rule matches is a holiday of the factory calendar. |
| `USBankCalendarFactory.FactoryCalendarIsDisjunctionOfRules` | src/main/java/com/dsoftware/bankholidays/USBankCalendarFactory.java:15-30 | The factory calendar reports a holiday iff one of the eleven rules matches. |
| `USBankCalendarFactory.NoRuleMatches` | src/main/java/com/dsoftware/bankholidays/USBankCalendarFactory.java:16-29 | A date outside May that none of the other ten rules matches is not a factory holiday. |
| `USBankCalendarFactory.Holiday20221225` | src/test/java/com/dsoftware/bankholidays/UsHolidayTest.java:15 | 2022-12-25 is a holiday. |
| `USBankCalendarFactory.Holiday20221226` | src/test/java/com/dsoftware/bankholidays/UsHolidayTest.java:16 | 2022-12-26 is a holiday: it is a Monday and Christmas fell on a Sunday. |
| `USBankCalendarFactory.Holiday20231225` | src/test/java/com/dsoftware/bankholidays/UsHolidayTest.java:17 | 2023-12-25 is a holiday. |
| `USBankCalendarFactory.Holiday20221010` | src/test/java/com/dsoftware/bankholidays/UsHolidayTest.java:18 | 2022-10-10 is a holiday (Columbus Day). |
| `USBankCalendarFactory.Holiday20231009` | src/test/java/com/dsoftware/bankholidays/UsHolidayTest.java:19 | 2023-10-09 is a holiday (Columbus Day). |
| `USBankCalendarFactory.Holiday20241014` | src/test/java/com/dsoftware/bankholidays/UsHolidayTest.java:20 | 2024-10-14 is a holiday (Columbus Day). |
| `USBankCalendarFactory.Holiday20251013` | src/test/java/com/dsoftware/bankholidays/UsHolidayTest.java:21 | 2025-10-13 is a holiday (Columbus Day). |
| `USBankCalendarFactory.Holiday20220704` | src/test/java/com/dsoftware/bankholidays/UsHolidayTest.java:22 | 2022-07-04 is a holiday. |
| `USBankCalendarFactory.Holiday20220619` | src/test/java/com/dsoftware/bankholidays/UsHolidayTest.java:23 | 2022-06-19 is a holiday. |
| `USBankCalendarFactory.NotHoliday20221125` | src/test/java/com/dsoftware/bankholidays/UsHolidayTest.java:32 | 2022-11-25, the Friday after Thanksgiving, is not a holiday. |
| `USBankCalendarFactory.NotHoliday20251012` | src/test/java/com/dsoftware/bankholidays/UsHolidayTest.java:33 | 2025-10-12, the Sunday before Columbus Day, is not a holiday. |
| `USBankCalendarFactory.NotHoliday20220705` | src/test/java/com/dsoftware/bankholidays/UsHolidayTest.java:34 | 2022-07-05 is not a holiday, because July 4, 2022 was already a Monday. |

## Left out

- `java.time` is not part of this model. `LocalDate`, `DayOfWeek`, `ChronoField` and `TemporalAdjusters` are replaced by the small Gregorian model in `Dates`. Its arithmetic follows `toEpochDay`, `getDayOfWeek` and `previous`. `LocalDate`'s year range (±999,999,999) and its overflow checks are not modelled, because years are unbounded integers.
- `Dates.MinusDays` covers steps of 0 to 28 days only. `previous` only ever subtracts 1 to 7 days, and no other caller subtracts days.
- The `Holiday` interface and dynamic dispatch are not modelled as such. The interface file is not part of this model, and its one method, `isHoliday(LocalDate)`, is inferred from the overrides. The datatype `Holiday` and the single predicate `USHolidays.IsHoliday` stand in for the eleven classes. The private helpers of each class (`isAMonday`, `isInJanuary`, `isThirdWeek`, …) are inlined into the three shape predicates.
- Determinism and "repeated queries agree" are not stated as lemmas. The model's calendar is a datatype and every query is a pure function, so for a given rule list they hold trivially.
- `BankCalendars.BankCalendar`: the constructor keeps the caller's list without copying it; the model holds a snapshot `seq`. That is exact for `createBankCalendar`'s immutable `List.of`, but it does not capture later changes to a mutable list that the caller still holds.
- `IsHoliday` takes only well-formed dates (the subset type `Date`), since `LocalDate.of` rejects any other.
- Null references are not modelled. In Java, a null date on a non-empty list of these rules, or a null rule list, makes `isHoliday` throw `NullPointerException`. A null rule throws only when `anyMatch` reaches it, that is when no earlier rule in the list matches the date. A null date on an empty list gives false. The model's types exclude null.
- The JUnit parameter plumbing of `UsHolidayTest` is left out. Its twelve concrete dates are carried over as the `Holiday…` and `NotHoliday…` lemmas.
- No claim is made about official US federal observance, such as moving a Saturday holiday to Friday. The code does not do this, and the model states only what the code does.

=== FILE: BankCalendar.dfy ===
/** BankCalendar: the list of holiday rules it was constructed with, and the
    query "is this date a holiday", answered by checking whether any
    rule in the list matches. */
module BankCalendars {
  import opened Dates
  import opened USHolidays

  /** Stream.anyMatch over the rule list: checks the rules left to right and
      stops at the first that matches. */
  function AnyMatch(holidays: seq<Holiday>, day: Date): (r: bool)
    ensures r <==> exists h :: h in holidays && IsHoliday(h, day)
  {
    if holidays == [] then false
    else IsHoliday(holidays[0], day) || AnyMatch(holidays[1..], day)
  }

  /** The calendar's rule list, held as a snapshot. The Java constructor keeps
      the caller's list reference without copying it; for the immutable list
      the factory passes, a snapshot is exact. */
  datatype BankCalendar = BankCalendar(holidays: seq<Holiday>)
  {
    function IsHoliday(day: Date): (r: bool)
      ensures r <==> exists i :: 0 <= i < |holidays| && USHolidays.IsHoliday(holidays[i], day)
    {
      AnyMatch(holidays, day)
    }
  }

  lemma EmptyCalendarHasNoHolidays(day: Date)
    ensures !BankCalendar([]).IsHoliday(day)
  {
  }

  /** The answer depends only on which rules the list holds: not on their
      order, nor on how often a rule is repeated. */
  lemma IsHolidayIgnoresOrderAndRepetition(a: seq<Holiday>, b: seq<Holiday>, day: Date)
    requires forall h :: h in a <==> h in b
    ensures BankCalendar(a).IsHoliday(day) == BankCalendar(b).IsHoliday(day)
  {
  }

  /** Adding rules never takes a holiday away. */
  lemma AddingRulesIsMonotone(a: seq<Holiday>, more: seq<Holiday>, day: Date)
    ensures BankCalendar(a).IsHoliday(day) ==> BankCalendar(a + more).IsHoliday(day)
    ensures BankCalendar(more).IsHoliday(day) ==> BankCalendar(a + more).IsHoliday(day)
  {
  }
}

=== FILE: Dates.dfy ===
/** A minimal model of the ISO-8601 proleptic Gregorian calendar, covering the
    parts of java.time's LocalDate, DayOfWeek, ALIGNED_WEEK_OF_MONTH and
    TemporalAdjusters.previous that the holiday rules use. Arithmetic follows
    LocalDate.toEpochDay and LocalDate.getDayOfWeek; year-range limits are not
    modelled (integers are unbounded). */
module Dates {

  const January := 1
  const February := 2
  const May := 5
  const June := 6
  const July := 7
  const September := 9
  const October := 10
  const November := 11
  const December := 12

  /** Gregorian leap-year rule (IsoChronology.isLeapYear). */
  predicate IsLeapYear(year: int) {
    year % 4 == 0 && (year % 100 != 0 || year % 400 == 0)
  }

  function LengthOfMonth(year: int, month: int): (n: int)
    requires January <= month <= December
    ensures 28 <= n <= 31
    ensures n == 29 <==> month == February && IsLeapYear(year)
  {
    if month == February then (if IsLeapYear(year) then 29 else 28)
    else if month == 4 || month == 6 || month == 9 || month == 11 then 30
    else 31
  }

  datatype LocalDate = LocalDate(year: int, month: int, day: int)

  predicate IsValid(d: LocalDate) {
    January <= d.month <= December && 1 <= d.day <= LengthOfMonth(d.year, d.month)
  }

  /** A well-formed calendar date: LocalDate.of rejects anything else. */
  type Date = d: LocalDate | IsValid(d) witness LocalDate(1970, 1, 1)

  datatype DayOfWeek = Monday | Tuesday | Wednesday | Thursday | Friday | Saturday | Sunday
  {
    /** The ISO-8601 number of the day, from 1 (Monday) to 7 (Sunday). */
    function Value(): (v: int)
      ensures 1 <= v <= 7
    {
      match this
      case Monday => 1
      case Tuesday => 2
      case Wednesday => 3
      case Thursday => 4
      case Friday => 5
      case Saturday => 6
      case Sunday => 7
    }
  }

  /** DayOfWeek.of: the day whose ISO number is `value`. */
  function DayOfWeekFromValue(value: int): (w: DayOfWeek)
    requires 1 <= value <= 7
    ensures w.Value() == value
  {
    if value == 1 then Monday
    else if value == 2 then Tuesday
    else if value == 3 then Wednesday
    else if value == 4 then Thursday
    else if value == 5 then Friday
    else if value == 6 then Saturday
    else Sunday
  }

  lemma ValueInjective(a: DayOfWeek, b: DayOfWeek)
    requires a.Value() == b.Value()
    ensures a == b
  {
  }

  /** Days from 0000-01-01 to 1970-01-01 (LocalDate.DAYS_0000_TO_1970). */
  const DaysFrom0000To1970 := 146097 * 5 - (30 * 365 + 7)

  /** Days from 0000-01-01 to January 1 of `year`, with the leap-day count
      written as toEpochDay writes it: one formula for non-negative years and
      one for negative years. Java's `/` truncates toward zero; on the
      non-negative operands of the first formula that is Dafny's `/`, and for
      a negative year Java's `year / -4` truncates to `(-year) / 4`. */
  function DaysBeforeYear(year: int): int {
    365 * year +
    if year >= 0 then
      (year + 3) / 4 - (year + 99) / 100 + (year + 399) / 400
    else
      -((-year) / 4 - (-year) / 100 + (-year) / 400)
  }

  /** LocalDate.toEpochDay: days since 1970-01-01. */
  function EpochDay(d: Date): int {
    var total := DaysBeforeYear(d.year) + (367 * d.month - 362) / 12 + d.day - 1;
    var adjusted :=
      if d.month > February then (if IsLeapYear(d.year) then total - 1 else total - 2)
      else total;
    adjusted - DaysFrom0000To1970
  }

  /** LocalDate.getDayOfWeek: floorMod(toEpochDay() + 3, 7) + 1, since
      1970-01-01 was a Thursday. */
  function DayOfWeekOf(d: Date): DayOfWeek {
    DayOfWeekFromValue((EpochDay(d) + 3) % 7 + 1)
  }

  /** ChronoField.ALIGNED_WEEK_OF_MONTH: days 1-7 are week 1, days 8-14 week 2, and so on. */
  function AlignedWeekOfMonth(d: Date): (week: int)
    ensures 1 <= week <= 5
    ensures 7 * week - 6 <= d.day <= 7 * week
  {
    (d.day - 1) / 7 + 1
  }

  /** One year later, the floor-division count of multiples of 4, 100 and
      400 grows by one exactly when `year` itself is such a multiple. */
  lemma MultipleCountStep(year: int)
    ensures (year + 4) / 4 - (year + 3) / 4 == (if year % 4 == 0 then 1 else 0)
    ensures (year + 100) / 100 - (year + 99) / 100 == (if year % 100 == 0 then 1 else 0)
    ensures (year + 400) / 400 - (year + 399) / 400 == (if year % 400 == 0 then 1 else 0)
  {
    var q4, r4 := year / 4, year % 4;
    assert (year + 4) / 4 == q4 + 1;
    assert (year + 3) / 4 == if r4 == 0 then q4 else q4 + 1;
    var q100, r100 := year / 100, year % 100;
    assert (year + 100) / 100 == q100 + 1;
    assert (year + 99) / 100 == if r100 == 0 then q100 else q100 + 1;
    var q400, r400 := year / 400, year % 400;
    assert (year + 400) / 400 == q400 + 1;
    assert (year + 399) / 400 == if r400 == 0 then q400 else q400 + 1;
  }

  /** For a negative year, toEpochDay's second formula agrees with the
      floor-division count of the first. */
  lemma NegativeLeapCountAgrees(year: int)
    requires year < 0
    ensures (year + 3) / 4 == -((-year) / 4)
    ensures (year + 99) / 100 == -((-year) / 100)
    ensures (year + 399) / 400 == -((-year) / 400)
  {
  }

  lemma DaysBeforeYearFloorForm(year: int)
    ensures DaysBeforeYear(year) == 365 * year + (year + 3) / 4 - (year + 99) / 100 + (year + 399) / 400
  {
    if year < 0 {
      NegativeLeapCountAgrees(year);
    }
  }

  /** A year has 366 days exactly when it is a leap year. */
  lemma DaysBeforeYearStep(year: int)
    ensures DaysBeforeYear(year + 1) == DaysBeforeYear(year) + (if IsLeapYear(year) then 366 else 365)
  {
    DaysBeforeYearFloorForm(year);
    DaysBeforeYearFloorForm(year + 1);
    MultipleCountStep(year);
    Divisibility(year);
  }

  lemma Divisibility(year: int)
    ensures year % 400 == 0 ==> year % 100 == 0
    ensures year % 100 == 0 ==> year % 4 == 0
  {
  }

  /** The last day of a month is immediately followed by the first of the next month. */
  lemma EpochDayNextMonth(year: int, month: int)
    requires January <= month < December
    ensures EpochDay(LocalDate(year, month + 1, 1)) == EpochDay(LocalDate(year, month, LengthOfMonth(year, month))) + 1
  {
  }

  /** December 31 is immediately followed by January 1 of the next year. */
  lemma EpochDayNextYear(year: int)
    ensures EpochDay(LocalDate(year + 1, January, 1)) == EpochDay(LocalDate(year, December, 31)) + 1
  {
    DaysBeforeYearStep(year);
  }

  /** Calendar order: by year, then by month, then by day of the month. */
  predicate IsBefore(a: LocalDate, b: LocalDate) {
    a.year < b.year
    || (a.year == b.year && (a.month < b.month || (a.month == b.month && a.day < b.day)))
  }

  /** Within a year, the last day of a month comes before the first day of
      every later month. */
  lemma {:induction false} MonthsIncrease(year: int, m1: int, m2: int)
    requires January <= m1 < m2 <= December
    ensures EpochDay(LocalDate(year, m1, LengthOfMonth(year, m1))) < EpochDay(LocalDate(year, m2, 1))
    decreases m2 - m1
  {
    EpochDayNextMonth(year, m1);
    if m1 + 1 < m2 {
      MonthsIncrease(year, m1 + 1, m2);
    }
  }

  lemma SameYearIncreases(a: Date, b: Date)
    requires a.year == b.year && IsBefore(a, b)
    ensures EpochDay(a) < EpochDay(b)
  {
    if a.month < b.month {
      MonthsIncrease(a.year, a.month, b.month);
    }
  }

  /** December 31 of a year comes before January 1 of every later year. */
  lemma {:induction false} YearsIncrease(y1: int, y2: int)
    requires y1 < y2
    ensures EpochDay(LocalDate(y1, December, 31)) < EpochDay(LocalDate(y2, January, 1))
    decreases y2 - y1
  {
    EpochDayNextYear(y1);
    if y1 + 1 < y2 {
      SameYearIncreases(LocalDate(y1 + 1, January, 1), LocalDate(y1 + 1, December, 31));
      YearsIncrease(y1 + 1, y2);
    }
  }

  /** toEpochDay is strictly increasing in calendar order. */
  lemma EpochDayIncreasing(a: Date, b: Date)
    requires IsBefore(a, b)
    ensures EpochDay(a) < EpochDay(b)
  {
    if a.year == b.year {
      SameYearIncreases(a, b);
    } else {
      var last: Date := LocalDate(a.year, December, 31);
      var first: Date := LocalDate(b.year, January, 1);
      if a != last {
        SameYearIncreases(a, last);
      }
      if b != first {
        SameYearIncreases(first, b);
      }
      YearsIncrease(a.year, b.year);
    }
  }

  /** Distinct valid dates have distinct epoch days, so a contract that fixes
      a result's epoch day fixes the date itself. */
  lemma EpochDayInjective(a: Date, b: Date)
    requires EpochDay(a) == EpochDay(b)
    ensures a == b
  {
    if a != b {
      if IsBefore(a, b) {
        EpochDayIncreasing(a, b);
      } else {
        EpochDayIncreasing(b, a);
      }
    }
  }

  /** LocalDate.minus(n, ChronoUnit.DAYS) for steps of 0 to 28 days
      (TemporalAdjusters.previous takes 1 to 7): stepping back across a month
      or a year boundary lands on the right day of the previous month. */
  function MinusDays(d: Date, n: int): (r: Date)
    requires 0 <= n <= 28
    ensures EpochDay(r) == EpochDay(d) - n
  {
    if n < d.day then
      LocalDate(d.year, d.month, d.day - n)
    else if d.month > January then
      var previous := LocalDate(d.year, d.month - 1, LengthOfMonth(d.year, d.month - 1));
      EpochDayNextMonth(d.year, d.month - 1);
      LocalDate(d.year, d.month - 1, previous.day + d.day - n)
    else
      EpochDayNextYear(d.year - 1);
      LocalDate(d.year - 1, December, 31 + d.day - n)
  }

  lemma ModWeeks(x: int, weeks: int)
    ensures (x + 7 * weeks) % 7 == x % 7
  {
  }

  lemma ModShift(e: int, n: int)
    ensures (e + n) % 7 == (e % 7 + n) % 7
  {
    ModWeeks(e % 7 + n, e / 7);
  }

  /** Moving n days forward moves the day of the week n places forward (mod 7). */
  lemma DayOfWeekShift(a: Date, b: Date, n: int)
    requires EpochDay(b) == EpochDay(a) + n
    ensures DayOfWeekOf(b).Value() == (DayOfWeekOf(a).Value() - 1 + n) % 7 + 1
  {
    ModShift(EpochDay(a) + 3, n);
  }

  /** A date lies on `dayOfWeek` when its distance from a date of known
      weekday is that weekday's distance, modulo 7. */
  lemma DayOfWeekAfter(a: Date, b: Date, dayOfWeek: DayOfWeek, weeks: int)
    requires EpochDay(b) - EpochDay(a) == dayOfWeek.Value() - DayOfWeekOf(a).Value() + 7 * weeks
    ensures DayOfWeekOf(b) == dayOfWeek
  {
    var n := EpochDay(b) - EpochDay(a);
    DayOfWeekShift(a, b, n);
    assert DayOfWeekOf(a).Value() - 1 + n == dayOfWeek.Value() - 1 + 7 * weeks;
    ModWeeks(dayOfWeek.Value() - 1, weeks);
    ValueInjective(DayOfWeekOf(b), dayOfWeek);
  }

  /** Within a week of each other in one month, two dates that fall on the
      same day of the week are the same date. */
  lemma SameDayOfWeekWithinAWeek(a: Date, b: Date)
    requires a.year == b.year && a.month == b.month
    requires a.day <= b.day < a.day + 7
    requires DayOfWeekOf(a) == DayOfWeekOf(b)
    ensures a == b
  {
    DayOfWeekShift(a, b, b.day - a.day);
  }

  /** TemporalAdjusters.previous(dayOfWeek): the nearest date strictly before
      `d` that falls on `dayOfWeek`, so it steps back between one and seven days. */
  function Previous(d: Date, dayOfWeek: DayOfWeek): (r: Date)
    ensures EpochDay(d) - 7 <= EpochDay(r) < EpochDay(d)
    ensures DayOfWeekOf(r) == dayOfWeek
  {
    var daysDiff := DayOfWeekOf(d).Value() - dayOfWeek.Value();
    var n := if daysDiff <= 0 then daysDiff + 7 else daysDiff;
    var r := MinusDays(d, n);
    DayOfWeekAfter(d, r, dayOfWeek, if daysDiff <= 0 then -1 else 0);
    r
  }

  /** Less than a week's shift that keeps the weekday is no shift. */
  lemma ShortShiftIsZero(x: int, n: int)
    requires 0 <= x < 7 && -7 < n < 7
    requires (x + n) % 7 == x
    ensures n == 0
  {
  }

  /** Previous(d, dayOfWeek) is the only date in the seven days before `d`
      that falls on `dayOfWeek`. */
  lemma PreviousIsUnique(d: Date, dayOfWeek: DayOfWeek, r: Date)
    requires EpochDay(d) - 7 <= EpochDay(r) < EpochDay(d)
    requires DayOfWeekOf(r) == dayOfWeek
    ensures r == Previous(d, dayOfWeek)
  {
    var p := Previous(d, dayOfWeek);
    var n := EpochDay(r) - EpochDay(p);
    DayOfWeekShift(p, r, n);
    ShortShiftIsZero(dayOfWeek.Value() - 1, n);
    EpochDayInjective(p, r);
  }
}

=== FILE: USBankCalendarFactory.dfy ===
/** USBankCalendarFactory.createBankCalendar: the calendar of all eleven US
    bank-holiday rules, and the dates the repository's own tests check
    against it. */
module USBankCalendarFactory {
  import opened Dates
  import opened USHolidays
  import opened BankCalendars

  /** The eleven rules, in the order the factory lists them. Every rule
      appears, and since there are eleven, each appears exactly once. */
  function CreateBankCalendar(): (c: BankCalendar)
    ensures |c.holidays| == 11
    ensures forall h: Holiday :: h in c.holidays
  {
    var holidays := [
      USNewYearsDay,
      USMartinLutherKingDay,
      USPresidentsDay,
      USMemorialDay,
      USJuneteenth,
      USIndependenceDay,
      USLaborDay,
      USColumbusDay,
      USVeteransDay,
      USThanksgiving,
      USChristmas
    ];
    assert forall h: Holiday :: h in holidays by {
      forall h: Holiday ensures h in holidays {
        assert h == holidays[0] || h == holidays[1] || h == holidays[2] || h == holidays[3]
          || h == holidays[4] || h == holidays[5] || h == holidays[6] || h == holidays[7]
          || h == holidays[8] || h == holidays[9] || h == holidays[10];
      }
    }
    BankCalendar(holidays)
  }

  /** Any date one of the rules matches is a holiday of the factory calendar. */
  lemma MatchedByRule(h: Holiday, day: Date)
    requires IsHoliday(h, day)
    ensures CreateBankCalendar().IsHoliday(day)
  {
    var c := CreateBankCalendar();
    assert h in c.holidays;
    var i :| 0 <= i < |c.holidays| && c.holidays[i] == h;
  }

  /** The factory calendar is exactly the disjunction of the eleven rules. */
  lemma FactoryCalendarIsDisjunctionOfRules(day: Date)
    ensures CreateBankCalendar().IsHoliday(day) <==>
      IsHoliday(USNewYearsDay, day) || IsHoliday(USMartinLutherKingDay, day)
      || IsHoliday(USPresidentsDay, day) || IsHoliday(USMemorialDay, day)
      || IsHoliday(USJuneteenth, day) || IsHoliday(USIndependenceDay, day)
      || IsHoliday(USLaborDay, day) || IsHoliday(USColumbusDay, day)
      || IsHoliday(USVeteransDay, day) || IsHoliday(USThanksgiving, day)
      || IsHoliday(USChristmas, day)
  {
    var c := CreateBankCalendar();
    if c.IsHoliday(day) {
      var i :| 0 <= i < |c.holidays| && IsHoliday(c.holidays[i], day);
      assert c.holidays[i] in c.holidays;
    }
  }

  /** A date outside May that none of the other ten rules matches is not a
      holiday of the factory calendar. Memorial Day is ruled out through
      `MemorialDayIsLastMondayOfMay`, which needs only the month, so the
      negative test dates need not unfold its `previous` computation; that
      is the reason for the May exclusion. */
  lemma NoRuleMatches(day: Date)
    requires day.month != May
    requires forall h: Holiday :: h != USMemorialDay ==> !IsHoliday(h, day)
    ensures !CreateBankCalendar().IsHoliday(day)
  {
    MemorialDayIsLastMondayOfMay(day);
    FactoryCalendarIsDisjunctionOfRules(day);
  }

  // The dates the repository's tests check against the factory calendar.

  /** Christmas 2022, a Sunday. */
  lemma Holiday20221225()
    ensures CreateBankCalendar().IsHoliday(LocalDate(2022, 12, 25))
  {
    MatchedByRule(USChristmas, LocalDate(2022, 12, 25));
  }

  /** The Monday after Christmas 2022. */
  lemma Holiday20221226()
    ensures CreateBankCalendar().IsHoliday(LocalDate(2022, 12, 26))
  {
    assert EpochDay(LocalDate(2022, 12, 26)) == 19352;
    MatchedByRule(USChristmas, LocalDate(2022, 12, 26));
  }

  /** Christmas 2023. */
  lemma Holiday20231225()
    ensures CreateBankCalendar().IsHoliday(LocalDate(2023, 12, 25))
  {
    MatchedByRule(USChristmas, LocalDate(2023, 12, 25));
  }

  /** Columbus Day 2022. */
  lemma Holiday20221010()
    ensures CreateBankCalendar().IsHoliday(LocalDate(2022, 10, 10))
  {
    assert EpochDay(LocalDate(2022, 10, 10)) == 19275;
    MatchedByRule(USColumbusDay, LocalDate(2022, 10, 10));
  }

  /** Columbus Day 2023. */
  lemma Holiday20231009()
    ensures CreateBankCalendar().IsHoliday(LocalDate(2023, 10, 9))
  {
    assert EpochDay(LocalDate(2023, 10, 9)) == 19639;
    MatchedByRule(USColumbusDay, LocalDate(2023, 10, 9));
  }

  /** Columbus Day 2024. */
  lemma Holiday20241014()
    ensures CreateBankCalendar().IsHoliday(LocalDate(2024, 10, 14))
  {
    assert EpochDay(LocalDate(2024, 10, 14)) == 20010;
    MatchedByRule(USColumbusDay, LocalDate(2024, 10, 14));
  }

  /** Columbus Day 2025. */
  lemma Holiday20251013()
    ensures CreateBankCalendar().IsHoliday(LocalDate(2025, 10, 13))
  {
    assert EpochDay(LocalDate(2025, 10, 13)) == 20374;
    MatchedByRule(USColumbusDay, LocalDate(2025, 10, 13));
  }

  /** Independence Day 2022. */
  lemma Holiday20220704()
    ensures CreateBankCalendar().IsHoliday(LocalDate(2022, 7, 4))
  {
    MatchedByRule(USIndependenceDay, LocalDate(2022, 7, 4));
  }

  /** Juneteenth 2022, a Sunday. */
  lemma Holiday20220619()
    ensures CreateBankCalendar().IsHoliday(LocalDate(2022, 6, 19))
  {
    MatchedByRule(USJuneteenth, LocalDate(2022, 6, 19));
  }

  /** The day after Thanksgiving 2022, a Friday, is not a holiday. */
  lemma NotHoliday20221125()
    ensures !CreateBankCalendar().IsHoliday(LocalDate(2022, 11, 25))
  {
    assert EpochDay(LocalDate(2022, 11, 25)) == 19321;
    NoRuleMatches(LocalDate(2022, 11, 25));
  }

  /** October 12, 2025, the Sunday before Columbus Day, is not a holiday. */
  lemma NotHoliday20251012()
    ensures !CreateBankCalendar().IsHoliday(LocalDate(2025, 10, 12))
  {
    assert EpochDay(LocalDate(2025, 10, 12)) == 20373;
    NoRuleMatches(LocalDate(2025, 10, 12));
  }

  /** July 5, 2022 is not a holiday: July 4 was already a Monday, so nothing shifts to the Tuesday. */
  lemma NotHoliday20220705()
    ensures !CreateBankCalendar().IsHoliday(LocalDate(2022, 7, 5))
  {
    assert EpochDay(LocalDate(2022, 7, 5)) == 19178;
    NoRuleMatches(LocalDate(2022, 7, 5));
  }
}

=== FILE: USHolidays.dfy ===
/** The eleven US bank-holiday rules of USBankCalendarFactory. Each Java rule
    class becomes one constructor of `Holiday`, and the `isHoliday` override of
    each class becomes one case of `IsHoliday`. The rules come in three shapes:
    a fixed date that moves forward to Monday when it falls on a Sunday, the
    n-th given weekday of a month, and Memorial Day, the Monday strictly
    before June 1. */
module USHolidays {
  import opened Dates

  datatype Holiday =
    | USNewYearsDay
    | USMartinLutherKingDay
    | USPresidentsDay
    | USMemorialDay
    | USJuneteenth
    | USIndependenceDay
    | USLaborDay
    | USColumbusDay
    | USVeteransDay
    | USThanksgiving
    | USChristmas
  {
    predicate IsFixedDate() {
      this in {USNewYearsDay, USJuneteenth, USIndependenceDay, USVeteransDay, USChristmas}
    }
  }

  const NewYearsDayOfMonth := 1
  const JuneteenthDayOfMonth := 19
  const IndependenceDayOfMonth := 4
  const VeteransDayOfMonth := 11
  const ChristmasDayOfMonth := 25

  /** The fixed-date shape: the date itself, or the Monday that is the day after it. */
  predicate FixedDateOrMondayAfter(day: Date, month: int, dayOfMonth: int) {
    (day.month == month && day.day == dayOfMonth)
    || (DayOfWeekOf(day) == Monday && day.month == month && day.day == dayOfMonth + 1)
  }

  /** The floating shape: a given weekday in a given aligned week of a month. */
  predicate DayOfWeekInWeekOfMonth(day: Date, month: int, dayOfWeek: DayOfWeek, week: int) {
    day.month == month && DayOfWeekOf(day) == dayOfWeek && AlignedWeekOfMonth(day) == week
  }

  /** Memorial Day: equal to the Monday strictly before June 1 of the same year. */
  predicate IsMondayBeforeJuneFirst(day: Date) {
    var juneFirst: Date := LocalDate(day.year, June, 1);
    day == Previous(juneFirst, Monday)
  }

  /** Holiday.isHoliday, dispatched on the rule. */
  predicate IsHoliday(h: Holiday, day: Date) {
    match h
    case USNewYearsDay => FixedDateOrMondayAfter(day, January, NewYearsDayOfMonth)
    case USMartinLutherKingDay => DayOfWeekInWeekOfMonth(day, January, Monday, 3)
    case USPresidentsDay => DayOfWeekInWeekOfMonth(day, February, Monday, 3)
    case USMemorialDay => IsMondayBeforeJuneFirst(day)
    case USJuneteenth => FixedDateOrMondayAfter(day, June, JuneteenthDayOfMonth)
    case USIndependenceDay => FixedDateOrMondayAfter(day, July, IndependenceDayOfMonth)
    case USLaborDay => DayOfWeekInWeekOfMonth(day, September, Monday, 1)
    case USColumbusDay => DayOfWeekInWeekOfMonth(day, October, Monday, 2)
    case USVeteransDay => FixedDateOrMondayAfter(day, November, VeteransDayOfMonth)
    case USThanksgiving => DayOfWeekInWeekOfMonth(day, November, Thursday, 4)
    case USChristmas => FixedDateOrMondayAfter(day, December, ChristmasDayOfMonth)
  }

  // ---------------------------------------------------------------------------
  // Reference definitions: the date each rule names in a given year, computed
  // independently of the rule predicates above.
  // ---------------------------------------------------------------------------

  /** The `week`-th `dayOfWeek` of a month, counted from the month's first day. */
  function NthDayOfWeekInMonth(year: int, month: int, dayOfWeek: DayOfWeek, week: int): (d: Date)
    requires January <= month <= December && 1 <= week <= 4
    ensures d.year == year && d.month == month
    ensures DayOfWeekOf(d) == dayOfWeek
    ensures 7 * week - 6 <= d.day <= 7 * week
  {
    var first: Date := LocalDate(year, month, 1);
    var delta := dayOfWeek.Value() - DayOfWeekOf(first).Value();
    var offset := delta % 7;
    var d: Date := LocalDate(year, month, 1 + offset + 7 * (week - 1));
    DayOfWeekAfter(first, d, dayOfWeek, delta / 7 * -1 + week - 1);
    d
  }

  /** The last `dayOfWeek` of a month, counted back from the month's last day. */
  function LastDayOfWeekInMonth(year: int, month: int, dayOfWeek: DayOfWeek): (d: Date)
    requires January <= month <= December
    ensures d.year == year && d.month == month
    ensures DayOfWeekOf(d) == dayOfWeek
    ensures LengthOfMonth(year, month) - 7 < d.day
  {
    var last: Date := LocalDate(year, month, LengthOfMonth(year, month));
    var delta := DayOfWeekOf(last).Value() - dayOfWeek.Value();
    var offset := delta % 7;
    var d: Date := LocalDate(year, month, last.day - offset);
    DayOfWeekAfter(last, d, dayOfWeek, delta / 7);
    d
  }

  /** The date a rule names in `year`: the fixed date itself for the
      fixed-date rules, the n-th weekday for the floating rules, and the last
      Monday of May for Memorial Day. */
  function NominalDate(h: Holiday, year: int): (d: Date)
    ensures d.year == year
    ensures h == USMartinLutherKingDay ==>
      d.month == January && DayOfWeekOf(d) == Monday && 15 <= d.day <= 21
    ensures h == USPresidentsDay ==>
      d.month == February && DayOfWeekOf(d) == Monday && 15 <= d.day <= 21
    ensures h == USMemorialDay ==>
      d.month == May && DayOfWeekOf(d) == Monday && 25 <= d.day <= 31
    ensures h == USLaborDay ==>
      d.month == September && DayOfWeekOf(d) == Monday && 1 <= d.day <= 7
    ensures h == USColumbusDay ==>
      d.month == October && DayOfWeekOf(d) == Monday && 8 <= d.day <= 14
    ensures h == USThanksgiving ==>
      d.month == November && DayOfWeekOf(d) == Thursday && 22 <= d.day <= 28
    ensures h.IsFixedDate() ==> d.day < LengthOfMonth(year, d.month)
  {
    match h
    case USNewYearsDay => LocalDate(year, January, 1)
    case USMartinLutherKingDay => NthDayOfWeekInMonth(year, January, Monday, 3)
    case USPresidentsDay => NthDayOfWeekInMonth(year, February, Monday, 3)
    case USMemorialDay => LastDayOfWeekInMonth(year, May, Monday)
    case USJuneteenth => LocalDate(year, June, 19)
    case USIndependenceDay => LocalDate(year, July, 4)
    case USLaborDay => NthDayOfWeekInMonth(year, September, Monday, 1)
    case USColumbusDay => NthDayOfWeekInMonth(year, October, Monday, 2)
    case USVeteransDay => LocalDate(year, November, 11)
    case USThanksgiving => NthDayOfWeekInMonth(year, November, Thursday, 4)
    case USChristmas => LocalDate(year, December, 25)
  }

  /** The day after a fixed date; every fixed date is before the end of its month. */
  function DayAfterNominal(h: Holiday, year: int): (d: Date)
    requires h.IsFixedDate()
    ensures EpochDay(d) == EpochDay(NominalDate(h, year)) + 1
  {
    var nominal := NominalDate(h, year);
    LocalDate(year, nominal.month, nominal.day + 1)
  }

  // ---------------------------------------------------------------------------
  // Properties of the rules
  // ---------------------------------------------------------------------------

  /** A fixed-date rule matches its date, and the day after only when that day
      is a Monday, which is exactly when the fixed date was a Sunday. The shift
      goes forward only: a match is never earlier than the fixed date, so a
      Saturday holiday is never observed on the Friday before. */
  lemma FixedDateHolidayObserved(h: Holiday, day: Date)
    requires h.IsFixedDate()
    ensures IsHoliday(h, day) <==>
      day == NominalDate(h, day.year)
      || (DayOfWeekOf(NominalDate(h, day.year)) == Sunday && day == DayAfterNominal(h, day.year))
    ensures IsHoliday(h, day) ==>
      EpochDay(NominalDate(h, day.year)) <= EpochDay(day) <= EpochDay(NominalDate(h, day.year)) + 1
  {
    var nominal, after := NominalDate(h, day.year), DayAfterNominal(h, day.year);
    DayOfWeekShift(nominal, after, 1);
    if DayOfWeekOf(after) == Monday {
      assert DayOfWeekOf(nominal) == Sunday;
    }
    if DayOfWeekOf(nominal) == Sunday {
      assert DayOfWeekOf(after) == Monday;
    }
  }

  /** Each floating rule, and Memorial Day, matches exactly one date a year:
      the date NominalDate names. */
  lemma FloatingHolidayOncePerYear(h: Holiday, day: Date)
    requires !h.IsFixedDate()
    ensures IsHoliday(h, day) <==> day == NominalDate(h, day.year)
  {
    var nominal := NominalDate(h, day.year);
    if h == USMemorialDay {
      MemorialDayIsLastMondayOfMay(day);
      if day.month == May && DayOfWeekOf(day) == Monday && 25 <= day.day {
        if day.day <= nominal.day {
          SameDayOfWeekWithinAWeek(day, nominal);
        } else {
          SameDayOfWeekWithinAWeek(nominal, day);
        }
      }
    } else if IsHoliday(h, day) {
      if day.day <= nominal.day {
        SameDayOfWeekWithinAWeek(day, nominal);
      } else {
        SameDayOfWeekWithinAWeek(nominal, day);
      }
    }
  }

  /** Each floating rule in terms of days of the month: aligned week k of a
      month is days 7k-6 to 7k. */
  lemma FloatingHolidayWindows(day: Date)
    ensures IsHoliday(USMartinLutherKingDay, day) <==>
      day.month == January && DayOfWeekOf(day) == Monday && 15 <= day.day <= 21
    ensures IsHoliday(USPresidentsDay, day) <==>
      day.month == February && DayOfWeekOf(day) == Monday && 15 <= day.day <= 21
    ensures IsHoliday(USLaborDay, day) <==>
      day.month == September && DayOfWeekOf(day) == Monday && 1 <= day.day <= 7
    ensures IsHoliday(USColumbusDay, day) <==>
      day.month == October && DayOfWeekOf(day) == Monday && 8 <= day.day <= 14
    ensures IsHoliday(USThanksgiving, day) <==>
      day.month == November && DayOfWeekOf(day) == Thursday && 22 <= day.day <= 28
  {
    var week := AlignedWeekOfMonth(day);
    assert week == 1 <==> 1 <= day.day <= 7;
    assert week == 2 <==> 8 <= day.day <= 14;
    assert week == 3 <==> 15 <= day.day <= 21;
    assert week == 4 <==> 22 <= day.day <= 28;
  }

  /** Memorial Day is the last Monday of May: a Monday in May with no further
      Monday in May. When June 1 is itself a Monday, the strict search back
      gives May 25, not June 1. */
  lemma MemorialDayIsLastMondayOfMay(day: Date)
    ensures IsHoliday(USMemorialDay, day) <==>
      day.month == May && DayOfWeekOf(day) == Monday && day.day + 7 > LengthOfMonth(day.year, May)
  {
    var juneFirst: Date := LocalDate(day.year, June, 1);
    var memorial := Previous(juneFirst, Monday);
    var mayLast: Date := LocalDate(day.year, May, 31);
    EpochDayNextMonth(day.year, May);
    assert memorial.month == May && 25 <= memorial.day;
    if day.month == May && DayOfWeekOf(day) == Monday && day.day + 7 > 31 {
      if day.day <= memorial.day {
        SameDayOfWeekWithinAWeek(day, memorial);
      } else {
        SameDayOfWeekWithinAWeek(memorial, day);
      }
    }
  }

  lemma MemorialDayWhenJuneStartsOnMonday(year: int)
    requires DayOfWeekOf(LocalDate(year, June, 1)) == Monday
    ensures IsHoliday(USMemorialDay, LocalDate(year, May, 25))
    ensures !IsHoliday(USMemorialDay, LocalDate(year, June, 1))
  {
    var juneFirst: Date := LocalDate(year, June, 1);
    var may25: Date := LocalDate(year, May, 25);
    EpochDayNextMonth(year, May);
    DayOfWeekShift(may25, juneFirst, 7);
    MemorialDayIsLastMondayOfMay(may25);
  }

  /** No two different rules ever match the same date: each rule is confined
      to its own month, and the two months with two rules keep them apart by
      day (January 1-2 against 15-21, November 11-12 against 22-28). */
  lemma HolidaysNeverCoincide(h1: Holiday, h2: Holiday, day: Date)
    requires h1 != h2
    ensures !(IsHoliday(h1, day) && IsHoliday(h2, day))
  {
    MemorialDayIsLastMondayOfMay(day);
  }
}
